=== FILE: README.md ===
# Volunteer record browser — a Dafny model

This project models the client-side volunteer browser of an administrative
console for volunteers tied to health centers: the `Volunteers` page
component. The component holds the roster of volunteer records fetched from
the remote store. It shows one page of nine records, filtered by a free-text
search box, with one link per page. It deletes a record after a confirmation
dialog, and it edits a record through a modal form whose draft is merged into
the roster once the store confirms the update.

The model is functional. Records are JavaScript objects, written as
`map<string, Value>`. The derived view is a set of pure functions over
`seq<Record>`. Each handler is a function of the settled outcomes of its
dialog and remote call, which arrive as inputs (`Prompt`, `Call`, `Fetch`).

| file | module | contents |
|---|---|---|
| `text.dfy` | `Text` | `toLowerCase` (ASCII and Latin-1), `includes`, decimal rendering of integers, the zero test of `Number(string)` |
| `js_values.dfy` | `JsValues` | property values, truthiness, `||`, `===`, `== 0`, a field's search text |
| `seqs.dfy` | `Seqs` | `Array.prototype.filter` and `Array.prototype.slice` (negative indices included) |
| `records.dfy` | `Records` | records, property names, the search match, the role test, unique ids |
| `pagination.dfy` | `Pagination` | page window, visible rows, placeholder row, page count and page links |
| `edit_session.dfy` | `EditSession` | the modal and its draft, the form controls, the health-center select |
| `mutations.dfy` | `Mutations` | load, delete and update handlers with their dialogs |
| `browser.dfy` | `Browser` | the whole component as a state machine over user and remote events |

In these respects the model follows the code rather than the component's apparent intent:

- A confirmed delete drops every entry whose `idUsuario === id`, not just one entry. With unique ids this is exactly one entry (`Mutations.DeleteRemovesOne`).
- The empty query shows every window record that has at least one property. A record with no properties matches no query at all.
- The page size is the constant 9.
- The role filter is the loose `rol == 0`. So `false`, `"0"`, `""` and other zero numerals also pass.
- A store-reported failure shows the store's `msg`, whatever it is. The generic message appears only when a call rejects.

## Model

| member | source | states |
|---|---|---|
| `Text.Lower` | src/modules/volunteer/pages/Volunteers.tsx:34-35 | lower-casing keeps the length, turns every capital into its own lower-case letter (code point + 32), leaves every other character alone, and so leaves no capital |
| `Text.LowerIdempotent` | src/modules/volunteer/pages/Volunteers.tsx:34-35 | lower-casing the already lower-cased query or field text changes nothing |
| `Text.Contains` | src/modules/volunteer/pages/Volunteers.tsx:34 | `includes` never finds a needle longer than the text, and always finds the empty needle; `Text.ContainsIffOccurs` pins it to an occurrence at some offset |
| `Text.ContainsIffOccurs` | src/modules/volunteer/pages/Volunteers.tsx:34 | the left-to-right `includes` scan succeeds exactly when the needle occurs at some offset of the text |
| `Text.DecimalRoundTrip` | src/modules/volunteer/pages/Volunteers.tsx:34 | reading back the decimal text that `toString` gives a non-negative number yields that number |
| `Text.IntToDecimalInjective` | src/modules/volunteer/pages/Volunteers.tsx:34 | distinct integers have distinct decimal renderings, so two non-zero numeric properties search as the same text only when equal (with `JsValues.SearchTextOfNumber`) |
| `Text.ZeroNumeralOfDecimal` | src/modules/volunteer/pages/Volunteers.tsx:58 | the decimal rendering of a non-negative integer is loosely equal to 0 exactly when the integer is 0 |
| `Text.ZeroNumeralOfInt` | src/modules/volunteer/pages/Volunteers.tsx:58 | the decimal rendering of any integer, negative ones included, is loosely equal to 0 exactly when the integer is 0 |
| `JsValues.SearchText` | src/modules/volunteer/pages/Volunteers.tsx:34 | a falsy value (undefined, null, false, 0, NaN, "") searches as ""; a truthy value searches as its `toString` text, of the same length, with each capital lowered and every other character kept |
| `JsValues.StrictEquals` | src/modules/volunteer/pages/Volunteers.tsx:85-127 | `===` holds only between equal values, and an equal pair is `===` exactly when it is not NaN; `JsValues.StrictEqualsLaws` is its partner |
| `JsValues.StrictEqualsLaws` | src/modules/volunteer/pages/Volunteers.tsx:85-127 | `===` is symmetric and transitive, reflexive exactly off NaN, and NaN is `===` nothing, so `entry !== id` and `id !== entry` select the same entries |
| `JsValues.LooseEqualsZero` | src/modules/volunteer/pages/Volunteers.tsx:58 | a number or boolean is `== 0` exactly when it is falsy; "" is `== 0`; undefined, null and NaN never are; `Text.ZeroNumeralOfInt` covers numeral strings |
| `JsValues.LooseZeroOfNumbers` | src/modules/volunteer/pages/Volunteers.tsx:58 | a number is `== 0` exactly when it is falsy, and the decimal string of any integer is `== 0` exactly when the integer is 0 |
| `JsValues.SearchTextOfNumber` | src/modules/volunteer/pages/Volunteers.tsx:34 | a non-zero number searches as its decimal text, and a 0 (such as role 0) as "" |
| `Seqs.Filter` | src/modules/volunteer/pages/Volunteers.tsx:84-86 | `filter` keeps exactly the elements satisfying the predicate, each as often as before, in their original order |
| `Seqs.SliceIndex` | src/modules/volunteer/pages/Volunteers.tsx:27-30 | a `slice` bound counts back from the end when negative and is clamped to the length |
| `Seqs.JsSlice` | src/modules/volunteer/pages/Volunteers.tsx:27-30 | for `0 <= start <= end`, `slice` is the sub-sequence between the clamped bounds; it never holds more than `end - start` elements, nor anything not in the array; an end of 0 gives nothing |
| `Records.MatchesEmptyQuery` | src/modules/volunteer/pages/Volunteers.tsx:33-36 | the empty query matches exactly the records with at least one property |
| `Records.MatchesLowerQuery` | src/modules/volunteer/pages/Volunteers.tsx:35 | lower-casing the query beforehand does not change which records match |
| `Records.MatchesOwnText` | src/modules/volunteer/pages/Volunteers.tsx:33-36 | searching for the text of any string property of a record finds that record |
| `Records.FalsyRecordMatchesOnlyEmpty` | src/modules/volunteer/pages/Volunteers.tsx:34 | a record whose properties are all falsy matches no non-empty query |
| `Records.FilterKeepsUniqueIds` | src/modules/volunteer/pages/Volunteers.tsx:84-86 | dropping entries from a roster with unique ids keeps the ids unique |
| `Records.IsVolunteer` | src/modules/volunteer/pages/Volunteers.tsx:58 | a record passes the role filter only when it has a non-null `rol`; a numeric `rol` passes exactly when it is 0; an empty-string `rol` passes too |
| `Records.Matches` | src/modules/volunteer/pages/Volunteers.tsx:32-37 | only a record with at least one property can match; `Records.MatchesEmptyQuery`, `Records.MatchesLowerQuery` and `Records.MatchesOwnText` characterise the match |
| `Pagination.Window` | src/modules/volunteer/pages/Volunteers.tsx:25-30 | the window holds at most 9 records and, for page `p >= 1`, is the roster from `(p-1)*9` to `min(p*9, length)`; page 0 gives an empty window; every window record is a roster entry |
| `Pagination.VisibleRows` | src/modules/volunteer/pages/Volunteers.tsx:32-38 | the visible rows are the window's matching records, each as often as in the window, in window order, and never more than 9 |
| `Pagination.ShowsPlaceholder` | src/modules/volunteer/pages/Volunteers.tsx:188 | an empty window always shows the placeholder row; `Pagination.PlaceholderIffNoMatch` gives the exact condition |
| `Pagination.PageCount` | src/modules/volunteer/pages/Volunteers.tsx:237 | the page count is the ceiling of length/9: enough pages for every record and no empty last page |
| `Pagination.PageLinks` | src/modules/volunteer/pages/Volunteers.tsx:236-241 | there is one link per page, labelled 1 through the page count |
| `Pagination.WindowPastEnd` | src/modules/volunteer/pages/Volunteers.tsx:25-30 | a page starting at or after the end of the roster has an empty window |
| `Pagination.WindowRowComesFromPage` | src/modules/volunteer/pages/Volunteers.tsx:25-30 | every window record sits at a roster index of the current page |
| `Pagination.VisibleRowComesFromPage` | src/modules/volunteer/pages/Volunteers.tsx:32-38 | every visible row sits at a roster index of the current page: filtering never pulls a matching record from another page |
| `Pagination.EmptyQueryShowsWindow` | src/modules/volunteer/pages/Volunteers.tsx:32-38 | with an empty search box the visible rows are the whole window, when every record has a property |
| `Pagination.PlaceholderIffNoMatch` | src/modules/volunteer/pages/Volunteers.tsx:188-229 | the "no volunteers found" row appears exactly when no window record matches the query |
| `Pagination.PastEndShowsPlaceholder` | src/modules/volunteer/pages/Volunteers.tsx:25-30 | a page cursor past the last page shows an empty window and the placeholder, whatever the query |
| `Pagination.LinksAreNonEmptyPages` | src/modules/volunteer/pages/Volunteers.tsx:236-241 | a page has a link exactly when it is at least 1 and its window is non-empty; page 0 and negative pages never get one |
| `Pagination.VisibleRowsIgnoreQueryCase` | src/modules/volunteer/pages/Volunteers.tsx:33-36 | two queries that differ only in case show the same rows |
| `EditSession.Open` | src/modules/volunteer/pages/Volunteers.tsx:102-110 | opening the modal seeds the draft with every property of the row; the birth date becomes the normalised day, or "" when falsy; the id is kept; the modal shows |
| `EditSession.ApplyEdit` | src/modules/volunteer/pages/Volunteers.tsx:262-398 | a control change writes exactly its own property and keeps every other one; the id, the role and the nested center are never written |
| `EditSession.ApplyEdits` | src/modules/volunteer/pages/Volunteers.tsx:262-398 | after any run of control changes the draft has exactly its old properties plus those written; each written property holds the value of the last change to it; unwritten properties, the id, the role and the nested center are as before |
| `EditSession.ControlsShowEntry` | src/modules/volunteer/pages/Volunteers.tsx:261-398 | every text input and the department select display what was last entered in them |
| `EditSession.CenterPickNotShown` | src/modules/volunteer/pages/Volunteers.tsx:326-331 | as written, picking a health center never changes what the center select displays |
| `EditSession.CenterPickNotShownExample` | src/modules/volunteer/pages/Volunteers.tsx:326-331 | a row assigned to center 1 with center 2 picked still displays 1 |
| `EditSession.CenterPickShown` | src/modules/volunteer/pages/Volunteers.tsx:326-331 | with the corrected display the select shows the center last picked, or the empty option |
| `EditSession.InputsDoNotClobber` | src/modules/volunteer/pages/Volunteers.tsx:261-398 | typing into one input and then into another leaves each input showing its own entry |
| `Mutations.Load` | src/modules/volunteer/pages/Volunteers.tsx:54-65 | after a fetch, the roster is exactly the fetched records with `rol == 0`, with their multiplicities, in their original order; a rejected fetch leaves the roster alone |
| `Mutations.Survives` | src/modules/volunteer/pages/Volunteers.tsx:85 | a NaN target deletes nothing, and an entry whose id differs from the target always survives |
| `Mutations.Delete` | src/modules/volunteer/pages/Volunteers.tsx:68-100 | only a confirmed delete answered with success changes the roster, dropping exactly the entries whose id `===` the target, keeping every other entry as often as before and in order; each outcome ends with its own dialog: none when dismissed, the store's message on failure, the generic message on rejection |
| `Mutations.DeleteAbsentIsNoOp` | src/modules/volunteer/pages/Volunteers.tsx:84-86 | deleting an id no entry carries leaves the roster unchanged, whatever the store answers |
| `Mutations.DeleteIdempotent` | src/modules/volunteer/pages/Volunteers.tsx:84-86 | repeating a delete with the same outcome changes nothing more |
| `Mutations.DeleteRemovesOne` | src/modules/volunteer/pages/Volunteers.tsx:84-87 | with unique ids, a confirmed successful delete of a present id removes exactly one entry and keeps the ids unique |
| `Mutations.Patch` | src/modules/volunteer/pages/Volunteers.tsx:125-131 | the patched roster has the same length and the same ids; entries whose id `===` the draft's become the stored record overridden by the draft's properties; the others are unchanged |
| `Mutations.Update` | src/modules/volunteer/pages/Volunteers.tsx:118-140 | on success the matching entries are merged with the draft, the modal closes with an empty draft and the store's message shows; on failure or rejection the roster, draft and modal are unchanged and an error dialog shows |
| `Mutations.UpdateKeepsIds` | src/modules/volunteer/pages/Volunteers.tsx:125-131 | an update keeps ids unique, and with unique ids it changes at most one entry |
| `Mutations.UpdateKeepsUndraftedFields` | src/modules/volunteer/pages/Volunteers.tsx:128 | a property absent from the draft is never erased or changed by an update |
| `Mutations.PatchWithWiderDraft` | src/modules/volunteer/pages/Volunteers.tsx:125-131 | with unique ids, a draft carrying every property and the id of one entry replaces exactly that entry by the draft and nothing else |
| `Mutations.PatchWithOwnFieldsIsNoOp` | src/modules/volunteer/pages/Volunteers.tsx:126-130 | merging an entry's own record back into a roster with unique ids changes nothing |
| `Browser.DeleteTarget` | src/modules/volunteer/pages/Volunteers.tsx:216 | the id passed to the delete handler is `===` the row's own id exactly when that id is truthy or 0: a row whose id is undefined, null, "", false or NaN can never be deleted through its own button |
| `Browser.Step` | src/modules/volunteer/pages/Volunteers.tsx:18-398 | a search sets the query; link `i` below the page count goes to page `i + 1` and any other link does nothing; a load gives `Mutations.Load` of the fetch; a delete or edit button of a visible row runs `Mutations.Delete` on its target or opens the modal on it; a control change of the open modal applies that change to the draft; a submit runs `Mutations.Update`; close gives the hidden, empty modal; controls of a hidden modal do nothing; a load, search, page link or delete leaves the modal and its draft alone; a delete or edit button past the last visible row does nothing; only a delete or submit shows a dialog; and only a load, a confirmed successful delete or a successful update change the roster, only a page link the page, only the search box the query |
| `Browser.Run` | src/modules/volunteer/pages/Volunteers.tsx:18-40 | a run without a search event keeps the query, and one without a page click keeps the page cursor; `Browser.RunKeepsInv` states the invariant it keeps |
| `Browser.StepKeepsInv` | src/modules/volunteer/pages/Volunteers.tsx:236-241 | every event keeps the page cursor at 1 or more and keeps a hidden modal's draft empty |
| `Browser.RunKeepsInv` | src/modules/volunteer/pages/Volunteers.tsx:19-40 | in every state reachable from a valid one, the page cursor is at least 1 and a hidden modal has an empty draft |
| `Browser.EditsTouchOnlyDraft` | src/modules/volunteer/pages/Volunteers.tsx:262-398 | control changes leave the roster, page, query and modal visibility alone, and the open draft becomes the changes applied in order |
| `Browser.DiscardLeavesRoster` | src/modules/volunteer/pages/Volunteers.tsx:112-115 | closing the modal after any number of control changes leaves the roster as before, with the modal hidden and the draft empty |
| `Browser.EditedDraftTargetsOpenedRow` | src/modules/volunteer/pages/Volunteers.tsx:102-128 | a draft opened from a visible row keeps that row's id through every control change, so the update merges into that row's entry |
| `Browser.SubmitWithoutEditsOnlyNormalisesBirthday` | src/modules/volunteer/pages/Volunteers.tsx:102-131 | opening a visible row and submitting it unchanged, with success, rewrites only that row's entry, to the row with its birth date normalised to the picked day (or "" when it was falsy) |
| `Browser.DeletedRowIsGone` | src/modules/volunteer/pages/Volunteers.tsx:81-87 | after a confirmed successful delete of a visible row with a truthy id, no entry has that id and the page cursor has not moved |
| `Browser.PickedCenterShown` | src/modules/volunteer/pages/Volunteers.tsx:322-343 | with a row open, the corrected center select shows the center just picked, or the empty option when that is picked |

## Findings

| source | as written | input that shows it | evidently intended | confidence | as-written member | corrected member |
|---|---|---|---|---|---|---|
| src/modules/volunteer/pages/Volunteers.tsx:326-331 | the center select displays `CentroSalud?.idCentroSalud`, but its change handler writes `idCentroSalud`, so the display never follows a pick | a row whose `CentroSalud` has `idCentroSalud: 1`; the user picks center 2; the select still shows 1 | the select shows the center just picked (or the empty option), while the stored center shows before any pick | medium, not executed | `EditSession.CenterPickNotShown` | `EditSession.CenterPickShown` |

The submitted draft does carry the picked id. Only the controlled select's
display is wrong. `Browser.CenterShown` uses the corrected display
`EditSession.CenterControl`, and `Browser.PickedCenterShown` states what it shows
in a session.

## Left out

- The health-center list fetch (Volunteers.tsx:44-51) only fills the options of the center select. The options are modelled as `CenterChoice` inputs.
- Rendering: the JSX table, Bootstrap modal markup, icons and the `formatearFecha` column (Volunteers.tsx:197). These are presentation only.
- Date handling: `new Date(...).toISOString().split("T")[0]` (Volunteers.tsx:106) is a date-library call, so `EditSession.Open` takes its result as the `day` input. The `RangeError` this call throws for an invalid stored date is not modelled.
- The dialog and notification library is external. Confirmation answers are the `Prompt` input. The dialogs shown after a call are the `Notice` output, and they are assumed to resolve. A success dialog that rejects after the roster write is not modelled.
- The remote store services are external I/O, so their outcomes are the `Fetch` and `Call` inputs. `console.error` on a failed load is dropped.
- Asynchronous interleaving and the stale capture of the roster and draft in the handlers are left out. Each handler is one atomic step on the current state, because concurrency is not the subject of this model.
- Numbers are integers, plus the NaN that `parseInt("")` gives. Fractional numbers, `-0` and the exponent form of `toString` for huge numbers are left out, because records hold integer ids and codes.
- `toLowerCase` covers ASCII and the Latin-1 capitals. Other Unicode case mappings are not modelled, since the model has no Unicode tables.
- Strings are sequences of Unicode scalar values, while JavaScript strings are UTF-16 code units. Lone surrogates cannot be represented, and lengths count code points rather than code units. Substring search agrees on well-formed strings.
- Object identity: `===` on nested objects compares them by content. The model has no heap.
- The `toString` of a nested object is carried in `Obj.text`. For the plain objects the store returns, that text is "[object Object]".
- The plaintext password is an ordinary string property. It is displayed and edited like any other property, exactly as the component does.
- Seqs.JsSlice: its contract states only non-negative bounds. The body models negative bounds too, and `Pagination.Window` relies only on the non-negative case, since `Browser.RunKeepsInv` shows the page is always at least 1.
- The route table in src/routes/app.tsx has no logic to verify.

=== FILE: browser.dfy ===
/** The volunteer browser as a whole: the component's state and the user and
    remote events that change it. Every remote call and dialog answer arrives
    already settled inside its event, so each handler runs to completion in
    one step. */
module Browser {
  import opened JsValues
  import opened Records
  import opened Pagination
  import opened EditSession
  import opened Mutations

  /** `voluntario`, `currentPage`, `searchTerm`, and the modal with its draft. */
  datatype Session = Session(roster: seq<Record>, page: int, query: string, editor: Editor)

  /** The state on mount: empty roster, page 1, empty search, modal hidden. */
  const Initial: Session := Session([], 1, "", Closed)

  datatype Event =
    | Loaded(fetch: Fetch)                                  // the mount effect's fetch settles
    | Searched(query: string)                               // typing in the search box
    | PageClicked(link: nat)                                // the page button at this position
    | DeleteClicked(row: nat, prompt: Prompt, call: Call)   // trash button of a visible row
    | EditClicked(row: nat, day: string)                    // edit button of a visible row
    | Edited(edit: Edit)                                    // a form control of the open modal
    | ModalClosed                                           // the modal's close button
    | Submitted(call: Call)                                 // the modal's submit button

  datatype StepResult = StepResult(session: Session, notice: Notice)

  /** The rows the table shows. */
  function Visible(s: Session): seq<Record> {
    VisibleRows(s.roster, s.page, s.query)
  }

  /** The id the trash button passes: `voluntario.idUsuario || 0`. */
  function DeleteTarget(row: Record): (id: Value)
    ensures Truthy(IdOf(row)) ==> id == IdOf(row)
    ensures !Truthy(IdOf(row)) ==> id == Num(0)
    ensures StrictEquals(id, IdOf(row)) <==> Truthy(IdOf(row)) || IdOf(row) == Num(0)
  {
    Or(IdOf(row), Num(0))
  }

  /** One event. Buttons and controls that are not on screen (a page link or
      row past the end, a form control of a hidden modal) cannot be clicked,
      so such events leave the state alone. The search box and the page cursor
      never reset each other. */
  function Step(s: Session, e: Event): (r: StepResult)
    ensures r.session.roster != s.roster ==>
      || e.Loaded?
      || (e.DeleteClicked? && e.prompt == Accepted && Succeeded(e.call))
      || (e.Submitted? && Succeeded(e.call))
    ensures r.session.page != s.page ==> e.PageClicked?
    ensures r.session.query != s.query ==> e.Searched?
    ensures e.Searched? ==> r.session.page == s.page
    ensures e.PageClicked? ==> r.session.query == s.query
    ensures e.ModalClosed? ==> r.session.editor == Closed
    ensures e.Searched? ==> r.session.query == e.query
    ensures e.PageClicked? && e.link < PageCount(|s.roster|) ==> r.session.page == e.link + 1
    ensures e.PageClicked? && e.link >= PageCount(|s.roster|) ==> r.session == s
    ensures e.Loaded? ==> r.session.roster == Load(s.roster, e.fetch)
    ensures e.DeleteClicked? && e.row < |Visible(s)| ==>
      r.session.roster == Delete(s.roster, DeleteTarget(Visible(s)[e.row]), e.prompt, e.call).roster
      && r.notice == Delete(s.roster, DeleteTarget(Visible(s)[e.row]), e.prompt, e.call).notice
    ensures e.EditClicked? && e.row < |Visible(s)| ==> r.session.editor == Open(Visible(s)[e.row], e.day)
    ensures e.Edited? && s.editor.open ==> r.session.editor == Editor(true, ApplyEdit(s.editor.draft, e.edit))
    ensures e.Submitted? && s.editor.open ==>
      r.session.roster == Update(s.roster, s.editor, e.call).roster
      && r.session.editor == Update(s.roster, s.editor, e.call).editor
      && r.notice == Update(s.roster, s.editor, e.call).notice
    ensures (e.Edited? || e.Submitted?) && !s.editor.open ==> r.session == s
    ensures (e.Loaded? || e.Searched? || e.PageClicked? || e.DeleteClicked?) ==> r.session.editor == s.editor
    ensures (e.DeleteClicked? || e.EditClicked?) && e.row >= |Visible(s)| ==> r == StepResult(s, Silent)
    ensures (e.Loaded? || e.Searched? || e.PageClicked? || e.EditClicked? || e.Edited? || e.ModalClosed?) ==>
      r.notice == Silent
  {
    match e
    case Loaded(fetch) =>
      StepResult(s.(roster := Load(s.roster, fetch)), Silent)
    case Searched(q) =>
      StepResult(s.(query := q), Silent)
    case PageClicked(i) =>
      var links := PageLinks(s.roster);
      if i < |links| then StepResult(s.(page := links[i]), Silent) else StepResult(s, Silent)
    case DeleteClicked(row, prompt, call) =>
      var rows := Visible(s);
      if row < |rows| then
        var d := Delete(s.roster, DeleteTarget(rows[row]), prompt, call);
        StepResult(s.(roster := d.roster), d.notice)
      else StepResult(s, Silent)
    case EditClicked(row, day) =>
      var rows := Visible(s);
      if row < |rows| then StepResult(s.(editor := Open(rows[row], day)), Silent)
      else StepResult(s, Silent)
    case Edited(edit) =>
      if s.editor.open then StepResult(s.(editor := s.editor.(draft := ApplyEdit(s.editor.draft, edit))), Silent)
      else StepResult(s, Silent)
    case ModalClosed =>
      StepResult(s.(editor := Closed), Silent)
    case Submitted(call) =>
      if s.editor.open then
        var u := Update(s.roster, s.editor, call);
        StepResult(s.(roster := u.roster, editor := u.editor), u.notice)
      else StepResult(s, Silent)
  }

  /** A run of events from a state; the dialogs shown along the way are dropped. */
  function Run(s: Session, events: seq<Event>): (r: Session)
    ensures (forall i :: 0 <= i < |events| ==> !events[i].Searched?) ==> r.query == s.query
    ensures (forall i :: 0 <= i < |events| ==> !events[i].PageClicked?) ==> r.page == s.page
    decreases |events|
  {
    if |events| == 0 then s
    else
      assert forall i :: 0 <= i < |events| - 1 ==> events[1..][i] == events[i + 1];
      Run(Step(s, events[0]).session, events[1..])
  }

  // ---------------------------------------------------------------- invariants

  /** The page cursor is a page number of 1 or more, and a hidden modal holds an empty draft. */
  ghost predicate Inv(s: Session) {
    s.page >= 1 && (!s.editor.open ==> s.editor.draft == map[])
  }

  lemma InitialInv()
    ensures Inv(Initial)
  {
  }

  lemma StepKeepsInv(s: Session, e: Event)
    requires Inv(s)
    ensures Inv(Step(s, e).session)
  {
    if e.PageClicked? && e.link < |PageLinks(s.roster)| {
      assert PageLinks(s.roster)[e.link] == e.link + 1;
    }
  }

  /** Every reachable state keeps the invariant: page 0 and negative pages never occur. */
  lemma {:induction false} RunKeepsInv(s: Session, events: seq<Event>)
    requires Inv(s)
    ensures Inv(Run(s, events))
    decreases |events|
  {
    if |events| > 0 {
      StepKeepsInv(s, events[0]);
      RunKeepsInv(Step(s, events[0]).session, events[1..]);
    }
  }

  // ---------------------------------------------------------------- editing

  /** Control changes in the modal: each event edits the open draft. */
  predicate AllEdits(events: seq<Event>) {
    forall i :: 0 <= i < |events| ==> events[i].Edited?
  }

  function EditsOf(events: seq<Event>): (edits: seq<Edit>)
    requires AllEdits(events)
    ensures |edits| == |events|
    ensures forall i :: 0 <= i < |events| ==> edits[i] == events[i].edit
  {
    seq(|events|, i requires 0 <= i < |events| => events[i].edit)
  }

  /** Control changes touch only the draft: the roster, page and search stay
      put, and an open draft becomes the edits applied in order. */
  lemma {:induction false} EditsTouchOnlyDraft(s: Session, events: seq<Event>)
    requires AllEdits(events)
    ensures Run(s, events).roster == s.roster
    ensures Run(s, events).page == s.page
    ensures Run(s, events).query == s.query
    ensures Run(s, events).editor.open == s.editor.open
    ensures s.editor.open ==> Run(s, events).editor.draft == ApplyEdits(s.editor.draft, EditsOf(events))
    decreases |events|
  {
    if |events| > 0 {
      var next := Step(s, events[0]).session;
      EditsTouchOnlyDraft(next, events[1..]);
      assert EditsOf(events[1..]) == EditsOf(events)[1..];
    }
  }

  /** Closing the modal after any number of changes discards them: the
      roster is as before and the modal is hidden with an empty draft. */
  lemma DiscardLeavesRoster(s: Session, events: seq<Event>)
    requires AllEdits(events)
    ensures Run(s, events + [ModalClosed]).roster == s.roster
    ensures Run(s, events + [ModalClosed]).editor == Closed
  {
    RunAppend(s, events, [ModalClosed]);
    EditsTouchOnlyDraft(s, events);
  }

  lemma {:induction false} RunAppend(s: Session, a: seq<Event>, b: seq<Event>)
    ensures Run(s, a + b) == Run(Run(s, a), b)
    decreases |a|
  {
    if |a| > 0 {
      assert (a + b)[1..] == a[1..] + b;
      RunAppend(Step(s, a[0]).session, a[1..], b);
    } else {
      assert a + b == b;
    }
  }

  /** A draft opened from a row keeps that row's id through every control
      change, so a successful submit merges into exactly the entries sharing
      the row's id. */
  lemma EditedDraftTargetsOpenedRow(s: Session, row: nat, day: string, events: seq<Event>)
    requires row < |Visible(s)|
    requires AllEdits(events)
    ensures var t := Run(s, [EditClicked(row, day)] + events);
      t.editor.open && IdOf(t.editor.draft) == IdOf(Visible(s)[row])
  {
    var editing := Step(s, EditClicked(row, day)).session;
    assert Run(s, [EditClicked(row, day)] + events) == Run(editing, events);
    EditsTouchOnlyDraft(editing, events);
  }

  lemma RunTwo(s: Session, a: Event, b: Event)
    ensures Run(s, [a, b]) == Step(Step(s, a).session, b).session
  {
    assert [a, b][1..] == [b];
    assert Run(Step(s, a).session, [b]) == Step(Step(s, a).session, b).session;
  }

  lemma OpenStep(s: Session, row: nat, day: string)
    requires row < |Visible(s)|
    ensures Step(s, EditClicked(row, day)).session == s.(editor := Open(Visible(s)[row], day))
  {
  }

  lemma SubmitStep(s: Session, call: Call)
    requires s.editor.open && Succeeded(call)
    ensures Step(s, Submitted(call)).session == s.(roster := Patch(s.roster, s.editor.draft), editor := Closed)
  {
  }

  /** The roster after opening a visible row and submitting it at once with success. */
  lemma OpenThenSubmit(s: Session, row: nat, day: string, call: Call)
    requires row < |Visible(s)| && Succeeded(call)
    ensures Run(s, [EditClicked(row, day), Submitted(call)]).roster == Patch(s.roster, Open(Visible(s)[row], day).draft)
  {
    RunTwo(s, EditClicked(row, day), Submitted(call));
    OpenStep(s, row, day);
    SubmitStep(s.(editor := Open(Visible(s)[row], day)), call);
  }

  /** Opening a row and submitting it unchanged, with success, rewrites only
      that row's entry, and only to the draft: the row with its birth date
      normalised to the day (or "" when it was falsy). */
  lemma SubmitWithoutEditsOnlyNormalisesBirthday(s: Session, row: nat, day: string, call: Call)
    requires UniqueIds(s.roster)
    requires row < |Visible(s)| && !IdOf(Visible(s)[row]).NaN?
    requires Succeeded(call)
    ensures var t := Run(s, [EditClicked(row, day), Submitted(call)]);
      && |t.roster| == |s.roster|
      && forall i :: 0 <= i < |s.roster| ==>
           t.roster[i] == if s.roster[i] == Visible(s)[row] then Open(Visible(s)[row], day).draft else s.roster[i]
  {
    var x := Visible(s)[row];
    OpenThenSubmit(s, row, day, call);
    assert x in Window(s.roster, s.page);
    PatchWithWiderDraft(s.roster, x, Open(x, day).draft);
  }

  // ---------------------------------------------------------------- deleting

  /** A confirmed, successful delete of a row with a truthy id leaves no entry
      with that id and keeps the page cursor where it was, even when the page
      is now past the end. */
  lemma DeletedRowIsGone(s: Session, row: nat, call: Call)
    requires row < |Visible(s)| && Truthy(IdOf(Visible(s)[row])) && !IdOf(Visible(s)[row]).NaN?
    requires Succeeded(call)
    ensures var t := Step(s, DeleteClicked(row, Accepted, call)).session;
      && (forall x :: x in t.roster ==> IdOf(x) != IdOf(Visible(s)[row]))
      && t.page == s.page
  {
  }

  /** Once a row is open, the (corrected) center select shows the center just
      picked, or the empty option when that is picked. */
  lemma PickedCenterShown(s: Session, row: nat, day: string, choice: CenterChoice)
    requires row < |Visible(s)|
    ensures var t := Run(s, [EditClicked(row, day), Edited(PickCenter(choice))]);
      && (choice.Center? && choice.id != 0 ==> CenterShown(t) == Num(choice.id))
      && (choice.NoCenter? ==> CenterShown(t) == Str(""))
  {
    RunTwo(s, EditClicked(row, day), Edited(PickCenter(choice)));
    OpenStep(s, row, day);
    var editing := s.(editor := Open(Visible(s)[row], day));
    assert Step(editing, Edited(PickCenter(choice))).session.editor.draft
      == ApplyEdit(editing.editor.draft, PickCenter(choice));
    CenterPickShown(editing.editor.draft, choice);
  }

  /** The visible center of the open draft, as the select evidently means to show it. */
  function CenterShown(s: Session): (v: Value)
    ensures s.editor.open && CenterIdKey !in s.editor.draft ==> v == CenterControlAsWritten(s.editor.draft)
  {
    CenterControl(s.editor.draft)
  }
}

=== FILE: edit_session.dfy ===
/** The edit modal: a draft copy of one row, seeded when the modal opens,
    changed one property at a time by the form controls, and cleared when the
    modal closes. Nothing here touches the roster. */
module EditSession {
  import opened JsValues
  import opened Records

  /** `showModal` and `editVolunter`. */
  datatype Editor = Editor(open: bool, draft: Record)

  /** The state `handleCloseModal` leaves behind: hidden, with an empty draft. */
  const Closed: Editor := Editor(false, map[])

  /** `handleOpenModal(row)`. `day` is the calendar date the date library
      derives from the stored birth date; a falsy birth date becomes "". */
  function Open(row: Record, day: string): (e: Editor)
    ensures e.open
    ensures e.draft.Keys == row.Keys + {BirthdayKey}
    ensures forall k :: k in row && k != BirthdayKey ==> e.draft[k] == row[k]
    ensures Truthy(Get(row, BirthdayKey)) ==> e.draft[BirthdayKey] == Str(day)
    ensures !Truthy(Get(row, BirthdayKey)) ==> e.draft[BirthdayKey] == Str("")
    ensures IdOf(e.draft) == IdOf(row)
  {
    var birthday := if Truthy(Get(row, BirthdayKey)) then Str(day) else Str("");
    Editor(true, row[BirthdayKey := birthday])
  }

  // ---------------------------------------------------------------- form controls

  /** The text inputs of the form. */
  datatype TextField = FullName | Dni | Email | Address | Password | Birthday

  function TextKey(f: TextField): string {
    match f
    case FullName => NameKey
    case Dni => DniKey
    case Email => EmailKey
    case Address => AddressKey
    case Password => PasswordKey
    case Birthday => BirthdayKey
  }

  /** The options of the department select. */
  datatype Department = NoDepartment | Lima | Cusco | Arequipa

  function DepartmentName(d: Department): string {
    match d
    case NoDepartment => ""
    case Lima => "Lima"
    case Cusco => "Cusco"
    case Arequipa => "Arequipa"
  }

  /** The options of the health-center select: the empty option or a center id. */
  datatype CenterChoice = NoCenter | Center(id: int)

  /** One `onChange` of a form control. */
  datatype Edit =
    | TypeText(field: TextField, text: string)
    | PickDepartment(department: Department)
    | PickCenter(choice: CenterChoice)

  /** The draft property an edit writes. The center select writes the id
      property, not the nested center object it displays. */
  function EditKey(e: Edit): string {
    match e
    case TypeText(f, _) => TextKey(f)
    case PickDepartment(_) => DepartmentKey
    case PickCenter(_) => CenterIdKey
  }

  /** The value an edit writes; the center select stores `parseInt` of the
      option value, which is NaN for the empty option. */
  function EditValue(e: Edit): Value {
    match e
    case TypeText(_, t) => Str(t)
    case PickDepartment(d) => Str(DepartmentName(d))
    case PickCenter(NoCenter) => NaN
    case PickCenter(Center(id)) => Num(id)
  }

  /** `setEditVolunter({ ...editVolunter, key: value })`: one property
      replaced, every other one kept, and the id, role and center object never
      written. */
  function ApplyEdit(draft: Record, e: Edit): (d: Record)
    ensures d.Keys == draft.Keys + {EditKey(e)}
    ensures d[EditKey(e)] == EditValue(e)
    ensures forall k :: k in draft && k != EditKey(e) ==> d[k] == draft[k]
    ensures IdOf(d) == IdOf(draft)
    ensures Get(d, RoleKey) == Get(draft, RoleKey)
    ensures Get(d, CenterKey) == Get(draft, CenterKey)
  {
    draft[EditKey(e) := EditValue(e)]
  }

  /** Some edit of the run writes property `k`. */
  predicate Writes(edits: seq<Edit>, k: string) {
    exists i :: 0 <= i < |edits| && EditKey(edits[i]) == k
  }

  /** The properties a run of control changes writes. */
  function WrittenKeys(edits: seq<Edit>): set<string> {
    set i | 0 <= i < |edits| :: EditKey(edits[i])
  }

  /** The change at `i` is the last one of the run to write its property. */
  predicate LastWrite(edits: seq<Edit>, i: int)
    requires 0 <= i < |edits|
  {
    forall j :: i < j < |edits| ==> EditKey(edits[j]) != EditKey(edits[i])
  }

  /** A run of control changes, in order. */
  function ApplyEdits(draft: Record, edits: seq<Edit>): (d: Record)
    ensures d.Keys == draft.Keys + WrittenKeys(edits)
    ensures forall k :: k in draft && !Writes(edits, k) ==> d[k] == draft[k]
    ensures forall i :: 0 <= i < |edits| && LastWrite(edits, i) ==> d[EditKey(edits[i])] == EditValue(edits[i])
    ensures IdOf(d) == IdOf(draft)
    ensures Get(d, RoleKey) == Get(draft, RoleKey)
    ensures Get(d, CenterKey) == Get(draft, CenterKey)
    decreases |edits|
  {
    if |edits| == 0 then draft
    else
      var tail := edits[1..];
      assert forall i :: 0 <= i < |tail| ==> tail[i] == edits[i + 1];
      assert WrittenKeys(edits) == {EditKey(edits[0])} + WrittenKeys(tail) by {
        forall k | k in WrittenKeys(edits) ensures k in {EditKey(edits[0])} + WrittenKeys(tail) {
          var i :| 0 <= i < |edits| && EditKey(edits[i]) == k;
          if i > 0 {
            assert EditKey(tail[i - 1]) == k;
          }
        }
      }
      assert forall i :: 1 <= i < |edits| && LastWrite(edits, i) ==> LastWrite(tail, i - 1);
      ApplyEdits(ApplyEdit(draft, edits[0]), tail)
  }

  /** What a controlled input displays: `editVolunter.key || ""`. */
  function ControlValue(draft: Record, k: string): (v: Value)
    ensures Truthy(Get(draft, k)) ==> v == draft[k]
    ensures !Truthy(Get(draft, k)) ==> v == Str("")
  {
    Or(Get(draft, k), Str(""))
  }

  /** Each text input and the department select display what was last entered in them. */
  lemma ControlsShowEntry(draft: Record, f: TextField, text: string, dep: Department)
    ensures ControlValue(ApplyEdit(draft, TypeText(f, text)), TextKey(f)) == Str(text)
    ensures ControlValue(ApplyEdit(draft, PickDepartment(dep)), DepartmentKey) == Str(DepartmentName(dep))
  {
  }

  // ---------------------------------------------------------------- center select

  /** What the center select displays as written:
      `editVolunter.CentroSalud?.idCentroSalud || ""`. */
  function CenterControlAsWritten(draft: Record): Value {
    var center := Get(draft, CenterKey);
    var shown := if center.Obj? then Get(center.props, CenterIdKey) else Undefined;
    Or(shown, Str(""))
  }

  /** As written, picking a center never changes what the select displays:
      the pick is stored under `idCentroSalud` but the display reads the
      nested center object. */
  lemma CenterPickNotShown(draft: Record, choice: CenterChoice)
    ensures CenterControlAsWritten(ApplyEdit(draft, PickCenter(choice))) == CenterControlAsWritten(draft)
  {
  }

  /** A concrete case: a row assigned to center 1, center 2 picked, and the
      select still shows 1. */
  lemma CenterPickNotShownExample()
    ensures var draft := map[CenterKey := Obj("[object Object]", map[CenterIdKey := Num(1)])];
      CenterControlAsWritten(ApplyEdit(draft, PickCenter(Center(2)))) == Num(1)
  {
    var draft := map[CenterKey := Obj("[object Object]", map[CenterIdKey := Num(1)])];
    assert Get(ApplyEdit(draft, PickCenter(Center(2))), CenterKey) == draft[CenterKey];
  }

  /** The select display as evidently intended: the picked id once there is
      one, otherwise the stored center's id. */
  function CenterControl(draft: Record): (v: Value)
    ensures CenterIdKey !in draft ==> v == CenterControlAsWritten(draft)
  {
    if CenterIdKey in draft then Or(draft[CenterIdKey], Str("")) else CenterControlAsWritten(draft)
  }

  /** With the intended display the select shows the option last picked: the
      center, or the empty option. */
  lemma CenterPickShown(draft: Record, choice: CenterChoice)
    ensures choice.Center? && choice.id != 0 ==>
      CenterControl(ApplyEdit(draft, PickCenter(choice))) == Num(choice.id)
    ensures choice.NoCenter? ==>
      CenterControl(ApplyEdit(draft, PickCenter(choice))) == Str("")
  {
  }

  // ---------------------------------------------------------------- independent controls

  /** Typing into one input never disturbs what another shows: after typing
      `a` into `f` and then `b` into a different `g`, both inputs show their
      own entry. */
  lemma InputsDoNotClobber(draft: Record, f: TextField, a: string, g: TextField, b: string)
    requires f != g
    ensures var d := ApplyEdits(draft, [TypeText(f, a), TypeText(g, b)]);
      && ControlValue(d, TextKey(f)) == Str(a)
      && ControlValue(d, TextKey(g)) == Str(b)
  {
    var edits := [TypeText(f, a), TypeText(g, b)];
    assert LastWrite(edits, 0) && LastWrite(edits, 1);
  }
}

=== FILE: js_values.dfy ===
/** The JavaScript values a volunteer record can hold, and the three things the
    browser does with them: test truthiness, compare with `===` and `== 0`, and
    turn them into search text. */
module JsValues {
  import opened Text

  /** A property value. Numbers are integers (plus the NaN that `parseInt`
      yields for the empty option); `Obj` is a nested object such as the
      assigned health center, carrying the text its `toString` produces
      ("[object Object]" for plain objects) and its own properties. */
  datatype Value =
    | Undefined
    | Null
    | Bool(b: bool)
    | Num(n: int)
    | NaN
    | Str(s: string)
    | Obj(text: string, props: map<string, Value>)

  /** JavaScript truthiness: undefined, null, false, 0, NaN and "" are falsy. */
  predicate Truthy(v: Value) {
    match v
    case Undefined => false
    case Null => false
    case Bool(b) => b
    case Num(n) => n != 0
    case NaN => false
    case Str(s) => |s| > 0
    case Obj(_, _) => true
  }

  /** `a || b` */
  function Or(a: Value, b: Value): (r: Value)
    ensures Truthy(a) ==> r == a
    ensures !Truthy(a) ==> r == b
  {
    if Truthy(a) then a else b
  }

  /** `a === b`. NaN is unequal to everything; objects are compared by content,
      which stands in for reference identity. */
  predicate StrictEquals(a: Value, b: Value)
    ensures StrictEquals(a, b) ==> a == b
    ensures a == b ==> (StrictEquals(a, b) <==> !a.NaN?)
  {
    a == b && !a.NaN?
  }

  /** `===` is an equivalence on every value but NaN: symmetric, transitive,
      and reflexive exactly off NaN. So `entry !== id` and `id !== entry`
      drop the same entries. */
  lemma StrictEqualsLaws(a: Value, b: Value, c: Value)
    ensures StrictEquals(a, b) <==> StrictEquals(b, a)
    ensures StrictEquals(a, b) && StrictEquals(b, c) ==> StrictEquals(a, c)
    ensures StrictEquals(a, a) <==> !a.NaN?
    ensures a.NaN? ==> !StrictEquals(a, b) && !StrictEquals(b, a)
  {
  }

  /** `String(v)` */
  function ToText(v: Value): string {
    match v
    case Undefined => "undefined"
    case Null => "null"
    case Bool(b) => if b then "true" else "false"
    case Num(n) => IntToDecimal(n)
    case NaN => "NaN"
    case Str(s) => s
    case Obj(text, _) => text
  }

  /** `v == 0` with loose equality: booleans and strings are converted to
      numbers, objects through their `toString`, and null, undefined and NaN
      equal nothing numeric. */
  predicate LooseEqualsZero(v: Value)
    ensures (v.Num? || v.Bool?) ==> (LooseEqualsZero(v) <==> !Truthy(v))
    ensures v == Str("") ==> LooseEqualsZero(v)
    ensures LooseEqualsZero(v) ==> !v.Undefined? && !v.Null? && !v.NaN?
  {
    match v
    case Undefined => false
    case Null => false
    case Bool(b) => !b
    case Num(n) => n == 0
    case NaN => false
    case Str(s) => IsZeroNumeral(s)
    case Obj(text, _) => IsZeroNumeral(text)
  }

  /** The search text of a field: `value ? value.toString().toLowerCase() : ""`. */
  function SearchText(v: Value): (t: string)
    ensures !Truthy(v) ==> t == ""
    ensures forall i :: 0 <= i < |t| ==> !IsUpper(t[i])
    ensures Truthy(v) ==> |t| == |ToText(v)|
    ensures Truthy(v) ==> forall i :: 0 <= i < |t| ==>
      t[i] as int == if IsUpper(ToText(v)[i]) then ToText(v)[i] as int + 32 else ToText(v)[i] as int
  {
    if Truthy(v) then Lower(ToText(v)) else ""
  }

  /** Numbers loosely equal 0 exactly when they are falsy, and so does the
      decimal string of any integer. */
  lemma LooseZeroOfNumbers(n: int)
    ensures LooseEqualsZero(Num(n)) <==> !Truthy(Num(n))
    ensures LooseEqualsZero(Str(IntToDecimal(n))) <==> n == 0
  {
    ZeroNumeralOfInt(n);
  }

  /** The search text of an integer is its decimal rendering, unless it is 0. */
  lemma SearchTextOfNumber(n: int)
    ensures n != 0 ==> SearchText(Num(n)) == IntToDecimal(n)
    ensures n == 0 ==> SearchText(Num(n)) == ""
  {
    if n != 0 {
      var s := IntToDecimal(n);
      assert forall i :: 0 <= i < |s| ==> !IsUpper(s[i]) by {
        if n < 0 {
          assert forall i :: 1 <= i < |s| ==> IsDigit(s[i]) by {
            assert s[1..] == NatToDecimal(-n);
          }
        }
      }
      assert Lower(s) == s;
    }
  }
}

=== FILE: mutations.dfy ===
/** The three handlers that write the roster: the initial load, delete and
    update. Each remote call and the confirmation dialog is an input here; the
    roster changes only after the remote store has answered with success. */
module Mutations {
  import opened JsValues
  import opened Seqs
  import opened Records
  import opened EditSession

  // ---------------------------------------------------------------- outcomes

  /** The answer object of the remote store: `{ success, msg }`. */
  datatype Reply = Reply(success: bool, msg: string)

  /** A remote call either resolves with a reply or rejects (network failure, exception). */
  datatype Call = Resolved(reply: Reply) | Rejected

  /** The confirmation dialog: confirmed, dismissed or cancelled, or the dialog itself failed. */
  datatype Prompt = Accepted | Dismissed | PromptRejected

  /** The initial `obtenerUsuarios()` call. */
  datatype Fetch = Fetched(records: seq<Record>) | FetchRejected

  datatype Icon = SuccessIcon | ErrorIcon

  /** The dialog a handler shows after the remote call, if any. */
  datatype Notice = Silent | Dialog(title: string, text: string, icon: Icon)

  const ErrorTitle: string := "Error"
  const DeletedTitle: string := "¡Eliminado!"
  const DeletedText: string := "El usuario ha sido eliminado."
  const DeleteFailedText: string := "Hubo un error al eliminar el voluntario"
  const UpdatedTitle: string := "¡Actualizado!"
  const UpdateFailedText: string := "Hubo un error al actualizar el usuario"

  predicate Succeeded(c: Call) {
    c.Resolved? && c.reply.success
  }

  // ---------------------------------------------------------------- load

  /** The load effect: keep the fetched records whose `rol == 0`; a rejected
      fetch is only logged and leaves the roster as it was. */
  function Load(roster: seq<Record>, fetch: Fetch): (r: seq<Record>)
    ensures fetch.FetchRejected? ==> r == roster
    ensures fetch.Fetched? ==> forall x :: x in r <==> x in fetch.records && IsVolunteer(x)
    ensures fetch.Fetched? ==> SubsequenceOf(r, fetch.records)
    ensures fetch.Fetched? ==>
      forall x :: multiset(r)[x] == if IsVolunteer(x) then multiset(fetch.records)[x] else 0
  {
    match fetch
    case FetchRejected => roster
    case Fetched(records) => Filter(records, IsVolunteer)
  }

  // ---------------------------------------------------------------- delete

  /** The delete handler's effect on the roster and the dialog it ends with. */
  datatype DeleteEffect = DeleteEffect(roster: seq<Record>, notice: Notice)

  /** The entries that survive deleting `id`: those whose id is not `=== id`. */
  predicate Survives(id: Value, r: Record)
    ensures id.NaN? ==> Survives(id, r)
    ensures IdOf(r) != id ==> Survives(id, r)
  {
    !StrictEquals(IdOf(r), id)
  }

  /** `handleEliminarUsuario(id)` once the dialog and the remote call have settled. */
  function Delete(roster: seq<Record>, id: Value, prompt: Prompt, call: Call): (e: DeleteEffect)
    ensures prompt == Accepted && Succeeded(call) ==>
      && (forall x :: x in e.roster <==> x in roster && !StrictEquals(IdOf(x), id))
      && SubsequenceOf(e.roster, roster)
      && (forall x :: multiset(e.roster)[x] == if Survives(id, x) then multiset(roster)[x] else 0)
      && e.notice == Dialog(DeletedTitle, DeletedText, SuccessIcon)
    ensures !(prompt == Accepted && Succeeded(call)) ==> e.roster == roster
    ensures prompt == Dismissed ==> e.notice == Silent
    ensures prompt == Accepted && call.Resolved? && !call.reply.success ==>
      e.notice == Dialog(ErrorTitle, call.reply.msg, ErrorIcon)
    ensures prompt == PromptRejected || (prompt == Accepted && call.Rejected?) ==>
      e.notice == Dialog(ErrorTitle, DeleteFailedText, ErrorIcon)
  {
    match prompt
    case Dismissed => DeleteEffect(roster, Silent)
    case PromptRejected => DeleteEffect(roster, Dialog(ErrorTitle, DeleteFailedText, ErrorIcon))
    case Accepted =>
      match call
      case Rejected => DeleteEffect(roster, Dialog(ErrorTitle, DeleteFailedText, ErrorIcon))
      case Resolved(reply) =>
        if reply.success then
          DeleteEffect(Filter(roster, (r: Record) => Survives(id, r)), Dialog(DeletedTitle, DeletedText, SuccessIcon))
        else
          DeleteEffect(roster, Dialog(ErrorTitle, reply.msg, ErrorIcon))
  }

  /** Deleting an id no entry carries changes nothing, whatever the store answers. */
  lemma DeleteAbsentIsNoOp(roster: seq<Record>, id: Value, prompt: Prompt, call: Call)
    requires forall i :: 0 <= i < |roster| ==> !StrictEquals(IdOf(roster[i]), id)
    ensures Delete(roster, id, prompt, call).roster == roster
  {
  }

  /** Deleting twice is deleting once. */
  lemma DeleteIdempotent(roster: seq<Record>, id: Value, prompt: Prompt, call: Call)
    ensures var once := Delete(roster, id, prompt, call).roster;
      Delete(once, id, prompt, call).roster == once
  {
    var once := Delete(roster, id, prompt, call).roster;
    if prompt == Accepted && Succeeded(call) {
      forall i | 0 <= i < |once| ensures !StrictEquals(IdOf(once[i]), id) {
        assert once[i] in once;
      }
      DeleteAbsentIsNoOp(once, id, prompt, call);
    }
  }

  /** With unique ids, a confirmed delete of a present id removes exactly one
      entry and keeps the ids unique. */
  lemma DeleteRemovesOne(roster: seq<Record>, id: Value, call: Call, k: nat)
    requires UniqueIds(roster)
    requires k < |roster| && StrictEquals(IdOf(roster[k]), id)
    requires Succeeded(call)
    ensures |Delete(roster, id, Accepted, call).roster| == |roster| - 1
    ensures UniqueIds(Delete(roster, id, Accepted, call).roster)
  {
    var p := (r: Record) => Survives(id, r);
    FilterLength(roster, p);
    CountOneFailure(roster, p, k);
    FilterKeepsUniqueIds(roster, p);
  }

  /** When exactly the entry at `k` fails `p`, all but one entry satisfy it. */
  lemma {:induction false} CountOneFailure(roster: seq<Record>, p: Record -> bool, k: nat)
    requires UniqueIds(roster)
    requires k < |roster| && !p(roster[k])
    requires forall i :: 0 <= i < |roster| && IdOf(roster[i]) != IdOf(roster[k]) ==> p(roster[i])
    ensures Count(roster, p) == |roster| - 1
    decreases |roster|
  {
    UniqueIdsTail(roster);
    var tail := roster[1..];
    if k == 0 {
      AllCounted(tail, p);
    } else {
      assert tail[k - 1] == roster[k];
      assert IdOf(roster[0]) != IdOf(roster[k]);
      forall i | 0 <= i < |tail| && IdOf(tail[i]) != IdOf(tail[k - 1]) ensures p(tail[i]) {
        assert tail[i] == roster[i + 1];
      }
      CountOneFailure(tail, p, k - 1);
    }
  }

  lemma {:induction false} AllCounted(s: seq<Record>, p: Record -> bool)
    requires forall i :: 0 <= i < |s| ==> p(s[i])
    ensures Count(s, p) == |s|
    decreases |s|
  {
    if |s| > 0 {
      assert forall i :: 0 <= i < |s[1..]| ==> s[1..][i] == s[i + 1];
      AllCounted(s[1..], p);
    }
  }

  // ---------------------------------------------------------------- update

  /** `{ ...stored, ...draft }`: the draft's properties override, every other
      stored property is kept. */
  ghost predicate MergedFrom(m: Record, stored: Record, draft: Record) {
    && m.Keys == stored.Keys + draft.Keys
    && (forall k :: k in draft ==> m[k] == draft[k])
    && (forall k :: k in stored && k !in draft ==> m[k] == stored[k])
  }

  /** The success branch of the update handler: every entry whose id `===`
      the draft's id is merged with the draft; the others are kept. */
  function Patch(roster: seq<Record>, draft: Record): (r: seq<Record>)
    ensures |r| == |roster|
    ensures forall i :: 0 <= i < |r| && StrictEquals(IdOf(roster[i]), IdOf(draft)) ==>
      MergedFrom(r[i], roster[i], draft)
    ensures forall i :: 0 <= i < |r| && !StrictEquals(IdOf(roster[i]), IdOf(draft)) ==>
      r[i] == roster[i]
    ensures forall i :: 0 <= i < |r| ==> IdOf(r[i]) == IdOf(roster[i])
  {
    seq(|roster|, i requires 0 <= i < |roster| =>
      if StrictEquals(IdOf(roster[i]), IdOf(draft)) then roster[i] + draft else roster[i])
  }

  /** The update handler's effect: the roster, the modal and draft, and the dialog. */
  datatype UpdateEffect = UpdateEffect(roster: seq<Record>, editor: Editor, notice: Notice)

  /** `handleUpdateVolunteer` once the remote call has settled. On success the
      draft is merged and the modal closed; otherwise roster, draft and modal
      stay as they were. */
  function Update(roster: seq<Record>, editor: Editor, call: Call): (e: UpdateEffect)
    ensures Succeeded(call) ==>
      && |e.roster| == |roster|
      && (forall i :: 0 <= i < |roster| ==>
            if StrictEquals(IdOf(roster[i]), IdOf(editor.draft))
            then MergedFrom(e.roster[i], roster[i], editor.draft)
            else e.roster[i] == roster[i])
      && e.editor == Closed
      && e.notice == Dialog(UpdatedTitle, call.reply.msg, SuccessIcon)
    ensures !Succeeded(call) ==> e.roster == roster && e.editor == editor
    ensures call.Resolved? && !call.reply.success ==> e.notice == Dialog(ErrorTitle, call.reply.msg, ErrorIcon)
    ensures call.Rejected? ==> e.notice == Dialog(ErrorTitle, UpdateFailedText, ErrorIcon)
  {
    match call
    case Rejected => UpdateEffect(roster, editor, Dialog(ErrorTitle, UpdateFailedText, ErrorIcon))
    case Resolved(reply) =>
      if reply.success then
        UpdateEffect(Patch(roster, editor.draft), Closed, Dialog(UpdatedTitle, reply.msg, SuccessIcon))
      else
        UpdateEffect(roster, editor, Dialog(ErrorTitle, reply.msg, ErrorIcon))
  }

  /** An update keeps every entry's id, so ids stay unique, and with unique
      ids at most one entry changes. */
  lemma UpdateKeepsIds(roster: seq<Record>, editor: Editor, call: Call)
    requires UniqueIds(roster)
    ensures UniqueIds(Update(roster, editor, call).roster)
    ensures forall i, j :: 0 <= i < j < |roster| ==>
      Update(roster, editor, call).roster[i] == roster[i] || Update(roster, editor, call).roster[j] == roster[j]
  {
    var r := Update(roster, editor, call).roster;
    forall i, j | 0 <= i < j < |roster| ensures r[i] == roster[i] || r[j] == roster[j] {
      if StrictEquals(IdOf(roster[i]), IdOf(editor.draft)) {
        assert IdOf(roster[j]) != IdOf(roster[i]);
      }
    }
  }

  /** A property the draft leaves out is never erased or changed by an update. */
  lemma UpdateKeepsUndraftedFields(roster: seq<Record>, editor: Editor, call: Call, i: nat, k: string)
    requires i < |roster| && k in roster[i] && k !in editor.draft
    ensures k in Update(roster, editor, call).roster[i]
    ensures Update(roster, editor, call).roster[i][k] == roster[i][k]
  {
  }

  /** With unique ids, the merge-patch with a draft carrying entry `j`'s id
      rewrites entry `j` alone. */
  lemma PatchTargetsOneEntry(roster: seq<Record>, j: nat, draft: Record)
    requires UniqueIds(roster) && j < |roster|
    requires IdOf(draft) == IdOf(roster[j]) && !IdOf(draft).NaN?
    ensures Patch(roster, draft)[j] == roster[j] + draft
    ensures forall i :: 0 <= i < |roster| && i != j ==> Patch(roster, draft)[i] == roster[i]
  {
    forall i | 0 <= i < |roster| && i != j ensures Patch(roster, draft)[i] == roster[i] {
      if i < j {
        assert IdOf(roster[i]) != IdOf(roster[j]);
      } else {
        assert IdOf(roster[j]) != IdOf(roster[i]);
      }
    }
  }

  /** With unique ids, a draft that carries every property of entry `x` and
      its id replaces `x` by the draft and leaves every other entry alone. */
  lemma PatchWithWiderDraft(roster: seq<Record>, x: Record, draft: Record)
    requires UniqueIds(roster) && x in roster
    requires x.Keys <= draft.Keys && IdOf(draft) == IdOf(x) && !IdOf(x).NaN?
    ensures |Patch(roster, draft)| == |roster|
    ensures forall i :: 0 <= i < |roster| ==>
      Patch(roster, draft)[i] == if roster[i] == x then draft else roster[i]
  {
    var j :| 0 <= j < |roster| && roster[j] == x;
    PatchTargetsOneEntry(roster, j, draft);
    assert x + draft == draft;
    forall i | 0 <= i < |roster| && i != j ensures roster[i] != x {
      if i < j {
        assert IdOf(roster[i]) != IdOf(roster[j]);
      } else {
        assert IdOf(roster[j]) != IdOf(roster[i]);
      }
    }
  }

  /** The merge-patch is a no-op when the draft already agrees with the stored entry. */
  lemma PatchWithOwnFieldsIsNoOp(roster: seq<Record>, i: nat)
    requires i < |roster| && UniqueIds(roster) && !IdOf(roster[i]).NaN?
    ensures Patch(roster, roster[i]) == roster
  {
    var r := Patch(roster, roster[i]);
    forall j | 0 <= j < |roster| ensures r[j] == roster[j] {
      if j == i {
        assert roster[i] + roster[i] == roster[i];
      } else {
        assert IdOf(roster[j]) != IdOf(roster[i]);
      }
    }
  }
}

=== FILE: pagination.dfy ===
/** The derived view of the browser: the current page's window of the roster,
    the rows of that window that match the search box, the "no volunteers
    found" placeholder, and the page links. The window is cut first and the
    search filter is applied to it alone. */
module Pagination {
  import opened Seqs
  import opened Records

  /** `voluntarioPorPagina` */
  const PageSize: nat := 9

  function Min(a: int, b: int): int {
    if a < b then a else b
  }

  /** `voluntario.slice(indexOfFirstVoluntario, indexOfLastVoluntario)` with
      `indexOfLastVoluntario = currentPage * 9` and `indexOfFirstVoluntario`
      nine less. */
  function Window(roster: seq<Record>, page: int): (w: seq<Record>)
    ensures |w| <= PageSize
    ensures page >= 1 ==>
      w == roster[Min((page - 1) * PageSize, |roster|)..Min(page * PageSize, |roster|)]
    ensures page == 0 ==> w == []
    ensures forall x :: x in w ==> x in roster
  {
    JsSlice(roster, page * PageSize - PageSize, page * PageSize)
  }

  /** `filteredVoluntario`: the rows of the window that match the query. */
  function VisibleRows(roster: seq<Record>, page: int, query: string): (v: seq<Record>)
    ensures SubsequenceOf(v, Window(roster, page))
    ensures forall x :: x in v <==> x in Window(roster, page) && Matches(x, query)
    ensures |v| <= PageSize
    ensures forall x :: multiset(v)[x] == if Matches(x, query) then multiset(Window(roster, page))[x] else 0
  {
    Filter(Window(roster, page), (r: Record) => Matches(r, query))
  }

  /** The table shows its single "no volunteers found" row. */
  predicate ShowsPlaceholder(roster: seq<Record>, page: int, query: string)
    ensures Window(roster, page) == [] ==> ShowsPlaceholder(roster, page, query)
  {
    |VisibleRows(roster, page, query)| == 0
  }

  /** `Math.ceil(voluntario.length / 9)` */
  function PageCount(n: nat): (c: nat)
    ensures c * PageSize >= n
    ensures c > 0 ==> (c - 1) * PageSize < n
  {
    (n + PageSize - 1) / PageSize
  }

  /** The labels of the page buttons, `index + 1` for each index below the page count. */
  function PageLinks(roster: seq<Record>): (links: seq<int>)
    ensures |links| == PageCount(|roster|)
    ensures forall i :: 0 <= i < |links| ==> links[i] == i + 1
  {
    seq(PageCount(|roster|), i => i + 1)
  }

  // ---------------------------------------------------------------- properties

  /** A page at or past the end of the roster has an empty window. */
  lemma WindowPastEnd(roster: seq<Record>, page: int)
    requires page >= 1 && (page - 1) * PageSize >= |roster|
    ensures Window(roster, page) == []
  {
  }

  /** Every row of the window sits on the current page's slice of the roster. */
  lemma WindowRowComesFromPage(roster: seq<Record>, page: int, x: Record)
    requires page >= 1
    requires x in Window(roster, page)
    ensures exists i :: (page - 1) * PageSize <= i < page * PageSize && i < |roster| && roster[i] == x
  {
    var lo := Min((page - 1) * PageSize, |roster|);
    var w := Window(roster, page);
    var j :| 0 <= j < |w| && w[j] == x;
    assert roster[lo + j] == x;
  }

  /** A visible row comes from the current page's slice of the roster, never
      from another page, however well it matches the query. */
  lemma VisibleRowComesFromPage(roster: seq<Record>, page: int, query: string, x: Record)
    requires page >= 1
    requires x in VisibleRows(roster, page, query)
    ensures exists i :: (page - 1) * PageSize <= i < page * PageSize && i < |roster| && roster[i] == x
  {
    WindowRowComesFromPage(roster, page, x);
  }

  /** With an empty search box every window row with at least one property is shown. */
  lemma EmptyQueryShowsWindow(roster: seq<Record>, page: int)
    requires forall x :: x in Window(roster, page) ==> |x| > 0
    ensures VisibleRows(roster, page, "") == Window(roster, page)
  {
    var w := Window(roster, page);
    forall i | 0 <= i < |w| ensures Matches(w[i], "") {
      MatchesEmptyQuery(w[i]);
    }
  }

  /** The placeholder row appears exactly when no row of the window matches. */
  lemma PlaceholderIffNoMatch(roster: seq<Record>, page: int, query: string)
    ensures ShowsPlaceholder(roster, page, query)
      <==> forall x :: x in Window(roster, page) ==> !Matches(x, query)
  {
    var v := VisibleRows(roster, page, query);
    if |v| > 0 {
      assert v[0] in v;
    }
  }

  /** A cursor past the last page (left behind when the roster shrinks) shows
      the placeholder whatever the query. */
  lemma PastEndShowsPlaceholder(roster: seq<Record>, page: int, query: string)
    requires page > PageCount(|roster|)
    ensures Window(roster, page) == []
    ensures ShowsPlaceholder(roster, page, query)
  {
    assert (page - 1) * PageSize >= PageCount(|roster|) * PageSize;
  }

  /** The page links are exactly the pages whose window is non-empty: page 0,
      negative pages and pages past the end never get a link. */
  lemma LinksAreNonEmptyPages(roster: seq<Record>, p: int)
    ensures p in PageLinks(roster) <==> p >= 1 && Window(roster, p) != []
  {
    var links := PageLinks(roster);
    var c := PageCount(|roster|);
    if p in links {
      var i :| 0 <= i < |links| && links[i] == p;
      assert (p - 1) * PageSize <= (c - 1) * PageSize;
    }
    if 1 <= p <= c {
      assert links[p - 1] == p;
    }
    if p > c {
      PastEndShowsPlaceholder(roster, p, "");
    }
  }

  /** Case differences in the query never change the visible rows. */
  lemma VisibleRowsIgnoreQueryCase(roster: seq<Record>, page: int, q1: string, q2: string)
    requires Text.Lower(q1) == Text.Lower(q2)
    ensures VisibleRows(roster, page, q1) == VisibleRows(roster, page, q2)
  {
    FilterCongruent(Window(roster, page), (r: Record) => Matches(r, q1), (r: Record) => Matches(r, q2));
  }
}

=== FILE: records.dfy ===
/** A volunteer record as the browser holds it: a plain object whose
    properties are read by name. */
module Records {
  import opened Text
  import opened JsValues
  import opened Seqs

  /** A `User` object: property name to value. A missing property reads as undefined. */
  type Record = map<string, Value>

  const IdKey: string := "idUsuario"
  const RoleKey: string := "rol"
  const NameKey: string := "nombresCompletos"
  const DniKey: string := "dni"
  const AddressKey: string := "direccion"
  const EmailKey: string := "email"
  const BirthdayKey: string := "cumpleanos"
  const CenterKey: string := "CentroSalud"
  const CenterIdKey: string := "idCentroSalud"
  const DepartmentKey: string := "departamento"
  const PasswordKey: string := "password"

  /** `r[k]` */
  function Get(r: Record, k: string): (v: Value)
    ensures k !in r ==> v == Undefined
    ensures k in r ==> v == r[k]
  {
    if k in r then r[k] else Undefined
  }

  /** `r.idUsuario` */
  function IdOf(r: Record): Value {
    Get(r, IdKey)
  }

  /** The role filter applied on load: `r.rol == 0`. */
  predicate IsVolunteer(r: Record)
    ensures IsVolunteer(r) ==> RoleKey in r && r[RoleKey] != Null
    ensures Get(r, RoleKey).Num? ==> (IsVolunteer(r) <==> Get(r, RoleKey).n == 0)
    ensures Get(r, RoleKey) == Str("") ==> IsVolunteer(r)
  {
    LooseEqualsZero(Get(r, RoleKey))
  }

  /** The search filter: some property's search text contains the lower-cased query. */
  predicate Matches(r: Record, query: string)
    ensures Matches(r, query) ==> |r| > 0
  {
    exists k :: k in r && Contains(SearchText(r[k]), Lower(query))
  }

  /** No two entries share an id. */
  ghost predicate UniqueIds(rs: seq<Record>) {
    forall i, j :: 0 <= i < j < |rs| ==> IdOf(rs[i]) != IdOf(rs[j])
  }

  /** The empty query matches exactly the records with at least one property. */
  lemma MatchesEmptyQuery(r: Record)
    ensures Matches(r, "") <==> |r| > 0
  {
    if |r| > 0 {
      var k :| k in r;
      ContainsEmpty(SearchText(r[k]));
    }
  }

  /** Lower-casing the query beforehand changes nothing. */
  lemma MatchesLowerQuery(r: Record, q: string)
    ensures Matches(r, Lower(q)) <==> Matches(r, q)
  {
    LowerIdempotent(q);
  }

  /** Searching for a text property's own value finds the record. */
  lemma MatchesOwnText(r: Record, k: string)
    requires k in r && r[k].Str?
    ensures Matches(r, r[k].s)
  {
    var s := r[k].s;
    if |s| > 0 {
      ContainsSelf(Lower(s));
    } else {
      ContainsEmpty(SearchText(r[k]));
    }
  }

  /** A record whose properties are all falsy matches only queries that
      lower-case to the empty string. */
  lemma FalsyRecordMatchesOnlyEmpty(r: Record, q: string)
    requires forall k :: k in r ==> !Truthy(r[k])
    requires |q| > 0
    ensures !Matches(r, q)
  {
    forall k | k in r ensures !Contains(SearchText(r[k]), Lower(q)) {
      assert SearchText(r[k]) == "";
      ContainsIffOccurs("", Lower(q));
    }
  }

  lemma UniqueIdsTail(rs: seq<Record>)
    requires |rs| > 0 && UniqueIds(rs)
    ensures UniqueIds(rs[1..])
    ensures forall y :: y in rs[1..] ==> IdOf(y) != IdOf(rs[0])
  {
    var tail := rs[1..];
    forall i, j | 0 <= i < j < |tail| ensures IdOf(tail[i]) != IdOf(tail[j]) {
      assert tail[i] == rs[i + 1] && tail[j] == rs[j + 1];
    }
    forall y | y in tail ensures IdOf(y) != IdOf(rs[0]) {
      var j :| 0 <= j < |tail| && tail[j] == y;
      assert rs[j + 1] == y;
    }
  }

  lemma UniqueIdsCons(x: Record, t: seq<Record>)
    requires UniqueIds(t)
    requires forall y :: y in t ==> IdOf(y) != IdOf(x)
    ensures UniqueIds([x] + t)
  {
    var g := [x] + t;
    forall i, j | 0 <= i < j < |g| ensures IdOf(g[i]) != IdOf(g[j]) {
      assert g[j] == t[j - 1];
      if i > 0 {
        assert g[i] == t[i - 1];
      }
    }
  }

  /** Dropping entries keeps ids unique. */
  lemma {:induction false} FilterKeepsUniqueIds(rs: seq<Record>, p: Record -> bool)
    requires UniqueIds(rs)
    ensures UniqueIds(Filter(rs, p))
    decreases |rs|
  {
    if |rs| > 0 {
      UniqueIdsTail(rs);
      FilterKeepsUniqueIds(rs[1..], p);
      if p(rs[0]) {
        UniqueIdsCons(rs[0], Filter(rs[1..], p));
      }
    }
  }
}

=== FILE: seqs.dfy ===
/** The two array operations of the browser: `Array.prototype.filter` and
    `Array.prototype.slice`. */
module Seqs {

  /** `a` is `b` with some elements dropped and the rest in their order. */
  ghost predicate SubsequenceOf<T>(a: seq<T>, b: seq<T>)
    decreases |b|
  {
    |a| == 0
    || (|b| > 0 && ((a[0] == b[0] && SubsequenceOf(a[1..], b[1..])) || SubsequenceOf(a, b[1..])))
  }

  /** `s.filter(p)`: the elements satisfying `p`, each as often as in `s`, in the order of `s`. */
  function Filter<T(==,!new)>(s: seq<T>, p: T -> bool): (r: seq<T>)
    ensures |r| <= |s|
    ensures forall x :: x in r <==> x in s && p(x)
    ensures forall x :: multiset(r)[x] == if p(x) then multiset(s)[x] else 0
    ensures SubsequenceOf(r, s)
    ensures (forall i :: 0 <= i < |s| ==> p(s[i])) ==> r == s
    decreases |s|
  {
    if |s| == 0 then []
    else
      var rest := Filter(s[1..], p);
      assert s == [s[0]] + s[1..];
      if p(s[0]) then [s[0]] + rest else rest
  }

  /** Filtering depends only on the verdicts of the predicate on the elements. */
  lemma {:induction false} FilterCongruent<T(!new)>(s: seq<T>, p: T -> bool, q: T -> bool)
    requires forall i :: 0 <= i < |s| ==> p(s[i]) == q(s[i])
    ensures Filter(s, p) == Filter(s, q)
    decreases |s|
  {
    if |s| > 0 {
      FilterCongruent(s[1..], p, q);
    }
  }

  /** The number of elements of `s` satisfying `p`. */
  function Count<T>(s: seq<T>, p: T -> bool): nat {
    if |s| == 0 then 0 else (if p(s[0]) then 1 else 0) + Count(s[1..], p)
  }

  lemma {:induction false} FilterLength<T(!new)>(s: seq<T>, p: T -> bool)
    ensures |Filter(s, p)| == Count(s, p)
    decreases |s|
  {
    if |s| > 0 {
      FilterLength(s[1..], p);
    }
  }

  /** The index ECMAScript's `slice` derives from a relative index: negative
      values count back from the end, and the result is clamped to `[0, len]`. */
  function SliceIndex(rel: int, len: nat): (k: nat)
    ensures k <= len
    ensures 0 <= rel <= len ==> k == rel
    ensures rel > len ==> k == len
    ensures rel < 0 ==> k == if len + rel < 0 then 0 else len + rel
  {
    if rel < 0 then (if len + rel < 0 then 0 else len + rel)
    else if rel < len then rel
    else len
  }

  /** `s.slice(start, end)` */
  function JsSlice<T>(s: seq<T>, start: int, end: int): (r: seq<T>)
    ensures start <= end ==> |r| <= end - start
    ensures 0 <= start <= end ==>
      var lo := if start < |s| then start else |s|;
      var hi := if end < |s| then end else |s|;
      r == s[lo..hi]
    ensures end == 0 ==> r == []
    ensures forall x :: x in r ==> x in s
  {
    var from := SliceIndex(start, |s|);
    var to := SliceIndex(end, |s|);
    assert start <= end && from < to ==> to - from <= end - start;
    if from < to then s[from..to] else []
  }
}

=== FILE: text.dfy ===
/** String operations of the JavaScript runtime that the volunteer browser
    relies on: `toLowerCase`, `includes`, the decimal rendering of integers,
    and the numeric reading of strings that loose equality with `0` performs. */
module Text {

  // ---------------------------------------------------------------- case

  /** Upper-case letters whose lower-case form this model knows: ASCII A-Z and
      the Latin-1 capitals U+00C0..U+00DE except the multiplication sign. */
  predicate IsUpper(c: char) {
    ('A' <= c <= 'Z') || ('\U{C0}' <= c <= '\U{DE}' && c != '\U{D7}')
  }

  function LowerChar(c: char): (d: char)
    ensures !IsUpper(d)
    ensures !IsUpper(c) ==> d == c
    ensures IsUpper(c) ==> d as int == c as int + 32
  {
    if IsUpper(c) then (c as int + 32) as char else c
  }

  /** `s.toLowerCase()` */
  function Lower(s: string): (r: string)
    ensures |r| == |s|
    ensures forall i :: 0 <= i < |r| ==> !IsUpper(r[i])
    ensures forall i :: 0 <= i < |s| && !IsUpper(s[i]) ==> r[i] == s[i]
    ensures forall i :: 0 <= i < |s| && IsUpper(s[i]) ==> r[i] as int == s[i] as int + 32
  {
    seq(|s|, i requires 0 <= i < |s| => LowerChar(s[i]))
  }

  /** Lower-casing twice is lower-casing once. */
  lemma LowerIdempotent(s: string)
    ensures Lower(Lower(s)) == Lower(s)
  {
  }

  // ---------------------------------------------------------------- search

  predicate IsPrefix(p: string, s: string) {
    |p| <= |s| && s[..|p|] == p
  }

  /** `hay.includes(needle)`, scanning start positions left to right. */
  predicate Contains(hay: string, needle: string)
    ensures Contains(hay, needle) ==> |needle| <= |hay|
    ensures |needle| == 0 ==> Contains(hay, needle)
    decreases |hay|
  {
    IsPrefix(needle, hay) || (|hay| > 0 && Contains(hay[1..], needle))
  }

  /** The independent reading of `includes`: the needle occurs at some offset. */
  ghost predicate OccursAt(hay: string, needle: string, i: int) {
    0 <= i && i + |needle| <= |hay| && hay[i..i + |needle|] == needle
  }

  /** Occurrences past the first position are occurrences in the tail. */
  lemma OccursAtShift(hay: string, needle: string, i: int)
    requires |hay| > 0 && i > 0
    ensures OccursAt(hay, needle, i) <==> OccursAt(hay[1..], needle, i - 1)
  {
    if i + |needle| <= |hay| {
      assert hay[1..][i - 1..i - 1 + |needle|] == hay[i..i + |needle|];
    }
  }

  lemma {:induction false} ContainsIffOccurs(hay: string, needle: string)
    ensures Contains(hay, needle) <==> exists i :: OccursAt(hay, needle, i)
    decreases |hay|
  {
    assert OccursAt(hay, needle, 0) <==> IsPrefix(needle, hay);
    if |hay| > 0 {
      ContainsIffOccurs(hay[1..], needle);
      forall i | i > 0
        ensures OccursAt(hay, needle, i) <==> OccursAt(hay[1..], needle, i - 1)
      {
        OccursAtShift(hay, needle, i);
      }
      if Contains(hay[1..], needle) {
        var i :| OccursAt(hay[1..], needle, i);
        assert OccursAt(hay, needle, i + 1);
      }
      if exists i :: OccursAt(hay, needle, i) {
        var i :| OccursAt(hay, needle, i);
        assert i == 0 || OccursAt(hay[1..], needle, i - 1);
      }
    }
  }

  /** Every string contains itself, in particular every non-empty field text
      contains itself as a query. */
  lemma ContainsSelf(s: string)
    ensures Contains(s, s)
  {
    assert IsPrefix(s, s);
  }

  /** The empty string occurs in every string. */
  lemma ContainsEmpty(s: string)
    ensures Contains(s, "")
  {
    assert IsPrefix("", s);
  }

  // ---------------------------------------------------------------- integers

  predicate IsDigit(c: char) {
    '0' <= c <= '9'
  }

  function DigitChar(d: nat): (c: char)
    requires d < 10
    ensures IsDigit(c)
    ensures c as int - '0' as int == d
  {
    (d + '0' as int) as char
  }

  /** `String(n)` for a non-negative integer. */
  function NatToDecimal(n: nat): (s: string)
    ensures |s| > 0
    ensures forall i :: 0 <= i < |s| ==> IsDigit(s[i])
    ensures |s| > 1 ==> s[0] != '0'
    decreases n
  {
    if n < 10 then [DigitChar(n)] else NatToDecimal(n / 10) + [DigitChar(n % 10)]
  }

  /** `String(i)` for an integer: a minus sign followed by the magnitude. */
  function IntToDecimal(i: int): (s: string)
    ensures |s| > 0
    ensures i < 0 <==> s[0] == '-'
  {
    if i < 0 then "-" + NatToDecimal(-i) else NatToDecimal(i)
  }

  /** The value of a string of decimal digits. */
  function DecimalValue(s: string): nat
    requires forall i :: 0 <= i < |s| ==> IsDigit(s[i])
  {
    if |s| == 0 then 0
    else
      assert IsDigit(s[|s| - 1]);
      DecimalValue(s[..|s| - 1]) * 10 + (s[|s| - 1] as int - '0' as int)
  }

  /** Reading back the decimal rendering gives the number rendered. */
  lemma {:induction false} DecimalRoundTrip(n: nat)
    ensures DecimalValue(NatToDecimal(n)) == n
    decreases n
  {
    if n >= 10 {
      var s := NatToDecimal(n);
      DecimalRoundTrip(n / 10);
      assert s[..|s| - 1] == NatToDecimal(n / 10);
    }
  }

  /** Distinct integers render to distinct strings. */
  lemma IntToDecimalInjective(a: int, b: int)
    requires IntToDecimal(a) == IntToDecimal(b)
    ensures a == b
  {
    assert a < 0 <==> b < 0;
    if a < 0 {
      assert NatToDecimal(-a) == IntToDecimal(a)[1..] == NatToDecimal(-b);
      DecimalRoundTrip(-a);
      DecimalRoundTrip(-b);
    } else {
      DecimalRoundTrip(a);
      DecimalRoundTrip(b);
    }
  }

  // ---------------------------------------------------------------- ToNumber

  /** The characters ECMAScript's string-to-number conversion trims:
      WhiteSpace and LineTerminator. */
  predicate IsJsSpace(c: char) {
    c == '\t' || c == '\n' || c == '\U{B}' || c == '\U{C}' || c == '\r' || c == ' '
    || c == '\U{A0}' || c == '\U{1680}' || ('\U{2000}' <= c <= '\U{200A}')
    || c == '\U{2028}' || c == '\U{2029}' || c == '\U{202F}' || c == '\U{205F}'
    || c == '\U{3000}' || c == '\U{FEFF}'
  }

  function TrimJsSpace(s: string): (r: string)
    ensures |r| <= |s|
    ensures |r| > 0 ==> !IsJsSpace(r[0]) && !IsJsSpace(r[|r| - 1])
    decreases |s|
  {
    if |s| == 0 then s
    else if IsJsSpace(s[0]) then TrimJsSpace(s[1..])
    else if IsJsSpace(s[|s| - 1]) then TrimJsSpace(s[..|s| - 1])
    else s
  }

  predicate AllZeros(s: string) {
    forall i :: 0 <= i < |s| ==> s[i] == '0'
  }

  predicate AllDigits(s: string) {
    forall i :: 0 <= i < |s| ==> IsDigit(s[i])
  }

  /** A mantissa `0`, `00.`, `.0`, `0.00`, ...: zero digits with at most one point. */
  predicate ZeroMantissa(m: string) {
    (|m| > 0 && AllZeros(m))
    || (exists p :: 0 <= p < |m| && m[p] == '.' && |m| > 1 && AllZeros(m[..p]) && AllZeros(m[p + 1..]))
  }

  /** An exponent part `e5`, `E-2`, `e+0`, ... */
  predicate ExponentPart(x: string) {
    |x| >= 2 && (x[0] == 'e' || x[0] == 'E')
    && (if x[1] == '+' || x[1] == '-' then |x| > 2 && AllDigits(x[2..]) else AllDigits(x[1..]))
  }

  /** An unsigned decimal literal whose value is zero. */
  predicate ZeroDecimal(u: string) {
    ZeroMantissa(u) || exists j :: 0 < j < |u| && ZeroMantissa(u[..j]) && ExponentPart(u[j..])
  }

  /** A hexadecimal, octal or binary literal whose value is zero (no sign allowed). */
  predicate ZeroPrefixed(u: string) {
    |u| >= 3 && u[0] == '0' && u[1] in "xXoObB" && AllZeros(u[2..])
  }

  /** The string is one that `Number(s)` reads as 0 (or -0). */
  predicate IsZeroNumeral(s: string) {
    var t := TrimJsSpace(s);
    |t| == 0
    || ZeroPrefixed(t)
    || ZeroDecimal(t)
    || (|t| > 1 && (t[0] == '+' || t[0] == '-') && ZeroDecimal(t[1..]))
  }

  /** The decimal rendering of a number reads back as zero exactly when the number is 0. */
  lemma ZeroNumeralOfDecimal(n: nat)
    ensures IsZeroNumeral(NatToDecimal(n)) <==> n == 0
  {
    var s := NatToDecimal(n);
    assert TrimJsSpace(s) == s;
    if n == 0 {
      assert s == "0";
      assert ZeroMantissa(s);
    } else {
      assert !ZeroPrefixed(s);
      if |s| == 1 {
        assert s[0] != '0';
      }
      assert !ZeroMantissa(s) by {
        assert !AllZeros(s);
        assert forall p :: 0 <= p < |s| ==> s[p] != '.';
      }
      assert !ZeroDecimal(s) by {
        forall j | 0 < j < |s| && ZeroMantissa(s[..j]) ensures !ExponentPart(s[j..]) {
          assert IsDigit(s[j..][0]);
        }
      }
      assert s[0] != '+' && s[0] != '-';
    }
  }

  /** A string starting with a minus sign is no zero mantissa. */
  lemma SignedNotZeroMantissa(m: string)
    requires |m| > 0 && m[0] == '-'
    ensures !ZeroMantissa(m)
  {
    assert !AllZeros(m) && m[0] != '.';
    forall p | 0 < p < |m| ensures !AllZeros(m[..p]) {
      assert m[..p][0] == '-';
    }
  }

  /** The decimal rendering of any integer, negative ones included, reads
      back as zero exactly when the integer is 0. */
  lemma ZeroNumeralOfInt(i: int)
    ensures IsZeroNumeral(IntToDecimal(i)) <==> i == 0
  {
    if i >= 0 {
      ZeroNumeralOfDecimal(i);
    } else {
      var d := NatToDecimal(-i);
      var s := IntToDecimal(i);
      assert s == "-" + d;
      ZeroNumeralOfDecimal(-i);
      assert TrimJsSpace(d) == d;
      assert TrimJsSpace(s) == s;
      assert s[1..] == d;
      SignedNotZeroMantissa(s);
      forall j | 0 < j < |s| ensures !ZeroMantissa(s[..j]) {
        SignedNotZeroMantissa(s[..j]);
      }
    }
  }
}
